=== FILE: README.md ===
# Calculator state engine, modelled in Dafny

This project models the `Calculator` class of a desktop calculator
(calculator.py, lines 29-181): a small state machine over six fields —
`current_input`, `previous_input`, `operation`, `memory`, `history` and
`last_operation` — and the methods that change them: typing digits
(`add_to_input`), choosing an operator (`set_operation`), evaluating
(`calculate`), clearing (`clear_entry`, `clear_all`), the memory register
(`memory_add`, `memory_subtract`, `memory_recall`, `memory_clear`),
`percentage` and `toggle_sign`. It also models the text rule the main
display applies to the input (lines 308-310).

Every method is a pure function from the old `State` to the new one;
`calculate` also returns an `Answer` (the echoed input, the text of a
result, or an error text). Python's float arithmetic is not modelled: the
record `Numbers.Float<N>` carries `float()`, the operators, `**`,
`math.sqrt`, the integer formatting of results and `str()` as function
values, and every transition receives it as a parameter. What is verified is
the control flow and the string and sequence state around the arithmetic.

Modules:

- `Wrappers` — `Option`.
- `Numbers` — the abstract arithmetic record and the exceptions it may raise.
- `Operators` — the six operator symbols and the dispatch of `calculate`.
- `Text` — decimal-point counting, `startswith`, `rstrip`.
- `History` — the ten-entry calculation log.
- `Calculator` — the state and every method of the class.
- `Session` — sequences of method calls, the invariant they keep, typing
  whole numbers, and worked scenarios.
- `Display` — the trimming of the main display text.

In three places the code behaves unlike what a reader might expect; the
model follows the code:

- Division by a zero right operand does not reset the calculator. Line 102
  produces the text "Error: Div/0" as the result, and that text takes the
  success path. It is logged as `"<prev> / <cur> = Error: Div/0"` and becomes
  the input. The `ZeroDivisionError` handler (lines 125-127) is reached only
  through `0 ** negative`.
- An operator outside `+ - * / ^ √` makes `calculate` return "Error" with no
  state change (lines 107-108), not a reset. The operands are parsed first
  (lines 91-92), so an operand that does not parse still resets, whatever
  the operator.
- `operation` is any string, as in the source. "Pending" means set and
  non-empty, following Python truthiness.

## Model

| member | source | states |
|---|---|---|
| Calculator.Init | calculator.py:42-49 | a new calculator is the cleared state with memory 0.0 |
| Calculator.AddToInput | calculator.py:51-63 | only the input changes; a second point is rejected; a first point is appended; a bare "0" is replaced by a digit; otherwise the key is appended |
| Calculator.AddToInputKeepsOneDot | calculator.py:58-63 | typing digits or a point keeps at most one decimal point in the input |
| Session.TypedKeysAppend | calculator.py:58-63 | once the input is neither empty nor "0", any run of digit keys is appended exactly as typed, given at most one point in the input and the keys together |
| Session.TypedInput | calculator.py:58-63 | from the empty input left by an operator, from "0", or from any input without a redundant leading zero, typing digits gives the typed text with its leading zeros suppressed, given at most one point in the input and the keys together |
| Session.Normalized | calculator.py:60-61 | the reference for leading-zero suppression: the result is a suffix of the text that does not begin with a "0" followed by anything but a point; every removed character is a "0" followed by a character other than a point, so the zero before a point and a final lone zero are kept |
| Session.NormalizedPinned | calculator.py:60-61 | that contract determines the result: any suffix meeting it is `Normalized(t)` |
| Session.LeadingZerosSuppressed | calculator.py:60-61 | typing "0", "0", "7" after "0" gives "7" |
| Session.RightOperandTyped | calculator.py:58-63 | after an operator empties the input, "0", "7" gives "7" and "." gives "." |
| Calculator.SetOperation | calculator.py:65-78 | no change without input; otherwise the input moves to the left operand, the input empties, the operator is stored and the label reads "<left> <op>"; a pending calculation is evaluated first and its result becomes the left operand |
| Calculator.Operands | calculator.py:91-92 | the pair exists exactly when the left operand parses and the right one is absent or parses; it holds `float(previous_input)` and `float(current_input)`, or the left value twice when the input is empty |
| Operators.ParseOp | calculator.py:95-108 | exactly the six operator symbols are recognised |
| Operators.Symbol | calculator.py:95-106 | every operator has a one-character symbol that parses back to it |
| Operators.Compute | calculator.py:94-112 | `+ - *` give the formatted sum, difference and product; `/` by zero gives the in-band text "Error: Div/0", otherwise the formatted quotient; `^` gives the formatted power or its exception; the square root gives the formatted root of the left operand or fails; only `**` can raise ZeroDivisionError |
| Operators.RootIgnoresRightOperand | calculator.py:105-106 | the square root does not depend on the right operand |
| History.Push | calculator.py:115-118 | the new entry is last; a log of at most ten stays at most ten, dropping only its oldest entry, so it holds the newest ten in order |
| History.PushAllKeepsNewest | calculator.py:115-118 | after any number of calculations the log is exactly the ten most recent entries, in order |
| Calculator.Entry | calculator.py:115-116 | the history line is "<prev> <op> ", then the right operand verbatim, then " = <result>"; with an empty right operand it has a double space |
| Calculator.Record | calculator.py:114-123 | the success path logs the entry, stores the result text as input and clears the operation and label, keeping the left operand and memory |
| Calculator.Calculate | calculator.py:80-130 | memory never changes and the log stays within ten; it echoes the input (or "0"), changing nothing, exactly when no operation is pending or the left operand is empty; an unparseable operand resets all but memory with "Error"; an unknown operator returns "Error" and changes nothing; otherwise a computed text is logged and stored by the success path, a ZeroDivisionError resets with "Error: Div/0" and any other exception resets with "Error" |
| Calculator.DivideByZeroInBand | calculator.py:101-123 | `/` by zero logs "<prev> / <cur> = Error: Div/0", makes that text the input and clears the operation and label, without a reset |
| Calculator.UnknownOperatorChangesNothing | calculator.py:107-108 | an unknown operator returns "Error" and changes nothing |
| Calculator.UnparseableOperandResets | calculator.py:90-130 | an unparseable operand resets all but memory and returns "Error" |
| Calculator.ZeroDivisionOnlyFromPower | calculator.py:103-127 | a ZeroDivisionError from `**` resets all but memory and returns "Error: Div/0" |
| Calculator.ClearEntry | calculator.py:132-137 | only the input changes, to "0": the guard on the pending operation never fires |
| Calculator.ClearAll | calculator.py:139-145 | the result is the initial state with the old memory kept |
| Calculator.MemoryAdd | calculator.py:147-152 | only memory changes, by adding the parsed input; unparseable input changes nothing |
| Calculator.MemorySubtract | calculator.py:154-159 | only memory changes, by subtracting the parsed input; unparseable input changes nothing |
| Calculator.MemoryRecall | calculator.py:161-163 | only the input changes, to the unformatted text of memory |
| Calculator.MemoryClear | calculator.py:165-167 | only memory changes, to 0.0 |
| Calculator.Percentage | calculator.py:169-174 | only the input changes, to the text of input / 100; unparseable input changes nothing |
| Calculator.Negated | calculator.py:178-181 | a leading "-" is removed, otherwise one is added |
| Text.StartsWith | calculator.py:178 | `t.startswith(p)` holds exactly when `t` is `p` followed by the rest of `t` |
| Calculator.NegatedTwice | calculator.py:178-181 | toggling twice restores the input exactly when it does not begin with "--" |
| Calculator.ToggleSign | calculator.py:176-181 | only the input changes, to its sign-toggled text |
| Session.Step | calculator.py:51-181 | every method call keeps the log within ten entries and leaves memory alone unless it is a memory write |
| Session.Run | calculator.py:42-181 | any sequence of method calls from any state whose log holds at most ten entries keeps the log within ten entries; without memory writes, memory is unchanged |
| Session.ReachableIsValid | calculator.py:42-49 | every state reachable from a new calculator has at most ten log entries |
| Session.SumScenario | calculator.py:87-123 | "5 + 3 =" stores "8" and logs exactly "5 + 3 = 8" |
| Session.ChainScenario | calculator.py:72-78 | "5 + 3 +" evaluates the first sum and leaves "8 +" pending with "5 + 3 = 8" logged |
| Session.DivideByZeroScenario | calculator.py:101-123 | "5 / 0 =" logs "5 / 0 = Error: Div/0" and makes it the input, keeping "5" as the left operand |
| Session.ErrorTextAsOperand | calculator.py:72-130 | choosing an operator after the in-band error text and evaluating resets all but memory and returns "Error" |
| Session.RootScenario | calculator.py:105-123 | "16 √ =" stores "4" and logs "16 √  = 4" with an empty right operand |
| Session.MemoryScenario | calculator.py:147-167 | clear memory, add "5", recall: the input is the unformatted text of 0.0 + 5 |
| Display.Trim | calculator.py:308-310 | text without a point is shown as is; otherwise only trailing zeros and points are removed, the result does not end in a point, and for a number with one point whose point survives it does not end in a zero |
| Text.RStrip | calculator.py:310 | `t.rstrip(c)` is a prefix of `t` that does not end in `c`, and everything removed is `c` |
| Display.TrimKeepsIntegerPart | calculator.py:308-310 | for a number with one point, the digits before the point are never trimmed |
| Display.TrimIdempotent | calculator.py:308-310 | for a number with one point, trimming twice equals trimming once |
| Display.TrimNotIdempotentWithTwoDots | calculator.py:308-310 | with two points, "1.0.0" trims to "1.0" and then to "1" |
| Display.TrimDropsExponentDigit | calculator.py:308-310 | the display trims "1.5e-20" (3 / 2e20) to "1.5e-2", a different number |
| Display.TrimFraction | calculator.py:308-310 | the intended trimming: text in exponent notation or without a point is shown unchanged; plain decimal text is trimmed as before |
| Display.TrimFractionKeepsExponent | calculator.py:308-310 | with the intended trimming "1.5e-20" is shown in full |

## Findings

| source | as written | input that shows it | evidently intended | confidence | as-written member | corrected member |
|---|---|---|---|---|---|---|
| calculator.py:309-310 | any text holding a point has trailing "0"s and "." stripped, including a float in exponent notation | "3", "/", "200000000000000000000", "=" stores "1.5e-20", displayed as "1.5e-2" | only the fraction of a plain decimal is trimmed, as the comment at line 307 describes; exponent notation is shown in full | medium, not executed | Display.TrimDropsExponentDigit | Display.TrimFraction |

## Left out

- Float semantics: `float()` parsing, `str()` of floats, `is_integer`/`int()`
  formatting, `math.sqrt`, and `**` with its overflow and zero-division
  errors and its complex results for a negative base with a fractional
  exponent (a complex result skips the int formatting and its `str` is
  logged and stored). These are function values in `Numbers.Float`, not
  modelled.
- Calculator.Calculate: on success Python returns the number itself; the
  model returns its text, which is the value stored as the input.
- Calculator.MemoryAdd: the addition is abstract; only "unparseable input
  leaves the state unchanged" and "only memory changes" are stated in full.
- Calculator.MemorySubtract: the subtraction is abstract; only "unparseable
  input leaves the state unchanged" and "only memory changes" are stated in full.
- Calculator.Percentage: the division by 100 and its text are abstract; only
  "unparseable input leaves the state unchanged" and "only the input changes"
  are stated in full.
- The `CalculatorApp` window: widget construction, layout, theming
  (lines 23-24), the history label (lines 313-321), the button
  dispatch and the keyboard table (lines 324-373), because they are
  presentation with no logic of their own. `Session.Step` takes the
  method to call as an `Action` instead of decoding button text.
- The entry point and main loop (lines 378-380), because they only start the
  window.

=== FILE: calculator.dfy ===
/**
 The `Calculator` class of calculator.py: six fields and the methods that
 change them. Each method is a pure function from the old state to the new
 one; `calculate` also returns the value the Python method returns.
 */
module Calculator {
  import opened Wrappers
  import opened Numbers
  import opened Operators
  import opened Text
  import opened History

  /**
   The fields `current_input`, `previous_input`, `operation`, `memory`,
   `history` and `last_operation`.
   */
  datatype State<N> = State(
    current: string,
    previous: string,
    operation: Option<string>,
    memory: N,
    history: seq<string>,
    lastOperation: string)

  /** The text `calculate` returns for every failure but division by zero. */
  const GenericErrorText: string := "Error"

  /** What `calculate` returns. */
  datatype Answer =
    | Echo(text: string)    // nothing was pending: the current input, or "0"
    | Result(text: string)  // the text of the result the success path stored
    | Error(text: string)   // "Error" or "Error: Div/0" from a failure path

  /** The state of a fresh calculator whose memory holds `memory`. */
  function Fresh<N>(memory: N): (s: State<N>)
    ensures s.memory == memory && |s.history| == 0
  {
    State("0", "", None, memory, [], "")
  }

  /** The state `__init__` builds. */
  function Init<N>(f: Float<N>): (s: State<N>)
    ensures s == Fresh(f.zero)
    ensures s.current == "0" && s.operation == None && s.memory == f.zero
  {
    State("0", "", None, f.zero, [], "")
  }

  /** Python truthiness of `operation`: set and not the empty string. */
  predicate Pending(op: Option<string>) {
    op.Some? && op.value != ""
  }

  /** `add_to_input`: type one digit or the decimal point. */
  function AddToInput<N>(s: State<N>, v: string): (r: State<N>)
    ensures r.(current := s.current) == s
    ensures v == "." && '.' in s.current ==> r == s
    ensures s.current == "0" && v != "." ==> r.current == v
    ensures r.current == s.current || r.current == v || r.current == s.current + v
    ensures v != "." && s.current != "0" ==> r.current == s.current + v
    ensures v == "." && '.' !in s.current ==> r.current == s.current + "."
  {
    if v == "." && '.' in s.current then s
    else if s.current == "0" && v != "." then s.(current := v)
    else s.(current := s.current + v)
  }

  /**
   Typing keys that are digits or a point never lets a second point into
   the input.
   */
  lemma AddToInputKeepsOneDot<N>(s: State<N>, v: string)
    requires AtMostOneDot(s.current)
    requires v == "." || '.' !in v
    ensures AtMostOneDot(AddToInput(s, v).current)
  {
    var r := AddToInput(s, v);
    if r != s && r.current != v {
      DotsAppend(s.current, v);
    }
  }

  /** The operands of a pending calculation: `num1` and `num2` (lines 91-92). */
  function Operands<N>(f: Float<N>, s: State<N>): (r: Option<(N, N)>)
    ensures r.Some? <==> f.parse(s.previous).Some? && (s.current == "" || f.parse(s.current).Some?)
    ensures r.Some? ==> r.value.0 == f.parse(s.previous).value
    ensures r.Some? && s.current != "" ==> r.value.1 == f.parse(s.current).value
    ensures r.Some? && s.current == "" ==> r.value.1 == r.value.0
  {
    match f.parse(s.previous)
    case None => None
    case Some(a) =>
      if s.current == "" then Some((a, a))
      else
        match f.parse(s.current)
        case None => None
        case Some(b) => Some((a, b))
  }

  /** The history line of a completed calculation with result text `text`. */
  function Entry<N>(s: State<N>, text: string): (r: string)
    requires s.operation.Some?
    ensures StartsWith(r, s.previous + " " + s.operation.value + " ")
    ensures |r| == |s.previous| + |s.operation.value| + |s.current| + |text| + 5
    ensures r[|r| - |text| - 3..] == " = " + text
    ensures r[|s.previous| + |s.operation.value| + 2..|r| - |text| - 3] == s.current
    ensures s.current == "" ==> r == s.previous + " " + s.operation.value + "  = " + text
  {
    s.previous + " " + s.operation.value + " " + s.current + " = " + text
  }

  /** The success path of `calculate` (lines 114-123). */
  function Record<N>(s: State<N>, text: string): (r: State<N>)
    requires s.operation.Some?
    ensures r.previous == s.previous && r.memory == s.memory
    ensures r.current == text && r.operation == None && r.lastOperation == ""
    ensures r.history == Push(s.history, Entry(s, text))
  {
    s.(history := Push(s.history, Entry(s, text)), current := text, operation := None, lastOperation := "")
  }

  /**
   `calculate`. With nothing pending it echoes the input. Otherwise it parses
   both operands (a failure resets everything but memory), returns "Error"
   untouched for an unknown operator, resets on an exception raised by the
   arithmetic, and otherwise logs the calculation and stores its result.
   Division by zero takes the success path with the text "Error: Div/0".
   */
  function Calculate<N>(f: Float<N>, s: State<N>): (r: (State<N>, Answer))
    ensures r.0.memory == s.memory
    ensures |s.history| <= Capacity ==> |r.0.history| <= Capacity
    ensures r.1.Echo? <==> !Pending(s.operation) || s.previous == ""
    ensures r.1.Echo? ==> r.0 == s && r.1.text == (if s.current == "" then "0" else s.current)
    ensures r.1.Result? ==> s.operation.Some? && r.0 == Record(s, r.1.text)
    ensures r.1.Result? ==> r.0.history[|r.0.history| - 1] == Entry(s, r.1.text)
    ensures r.1.Error? ==> r.1.text == GenericErrorText || r.1.text == DivByZeroText
    ensures r.1.Error? ==> r.0 == Fresh(s.memory) || (r.0 == s && r.1.text == GenericErrorText)
    ensures r.0 == s && r.1.Error? ==> ParseOp(s.operation.value).None? && Operands(f, s).Some?
    ensures r.1 == Error(DivByZeroText) ==> ParseOp(s.operation.value) == Some(Power)
    ensures r.0.operation == None || r.0 == s
    ensures Pending(s.operation) && s.previous != "" && Operands(f, s).None? ==>
      r == (Fresh(s.memory), Error(GenericErrorText))
    ensures Pending(s.operation) && s.previous != "" && Operands(f, s).Some? &&
            ParseOp(s.operation.value).None? ==>
      r == (s, Error(GenericErrorText))
    ensures Pending(s.operation) && s.previous != "" && Operands(f, s).Some? &&
            ParseOp(s.operation.value).Some? ==>
      var o := Compute(f, ParseOp(s.operation.value).value, Operands(f, s).value.0, Operands(f, s).value.1);
      && (o.Done? ==> r == (Record(s, o.text), Result(o.text)))
      && (o.Failed? ==> r == (Fresh(s.memory), Error(if o.e == ZeroDivision then DivByZeroText else GenericErrorText)))
  {
    if !Pending(s.operation) || s.previous == "" then
      (s, Echo(if s.current == "" then "0" else s.current))
    else
      match Operands(f, s)
      case None => (ClearAll(s), Error(GenericErrorText))
      case Some((a, b)) =>
        match ParseOp(s.operation.value)
        case None => (s, Error(GenericErrorText))
        case Some(op) =>
          match Compute(f, op, a, b)
          case Failed(ZeroDivision) => (ClearAll(s), Error(DivByZeroText))
          case Failed(OtherException) => (ClearAll(s), Error(GenericErrorText))
          case Done(text) => (Record(s, text), Result(text))
  }

  /**
   Division by a zero right operand never raises: the error text goes
   through the success path, is logged and becomes the input, and the
   pending operation is cleared. Nothing is reset.
   */
  lemma DivideByZeroInBand<N>(f: Float<N>, s: State<N>, a: N, b: N)
    requires s.operation == Some("/") && s.previous != ""
    requires Operands(f, s) == Some((a, b)) && f.isZero(b)
    ensures var r := Calculate(f, s);
      && r.1 == Result(DivByZeroText)
      && r.0.current == DivByZeroText && r.0.previous == s.previous
      && r.0.operation == None && r.0.lastOperation == ""
      && r.0.history == Push(s.history, s.previous + " / " + s.current + " = " + DivByZeroText)
  {
    assert ParseOp("/") == Some(Divide);
    assert Entry(s, DivByZeroText) == s.previous + " / " + s.current + " = " + DivByZeroText;
  }

  /**
   A symbol outside the six operators makes `calculate` return "Error" and
   change nothing, provided both operands parse.
   */
  lemma UnknownOperatorChangesNothing<N>(f: Float<N>, s: State<N>)
    requires Pending(s.operation) && s.previous != ""
    requires Operands(f, s).Some? && ParseOp(s.operation.value).None?
    ensures Calculate(f, s) == (s, Error(GenericErrorText))
  {
  }

  /**
   An operand `float` cannot parse resets everything but memory, whatever
   the operator, because the operands are parsed before the operator is
   looked at.
   */
  lemma UnparseableOperandResets<N>(f: Float<N>, s: State<N>)
    requires Pending(s.operation) && s.previous != "" && Operands(f, s).None?
    ensures Calculate(f, s) == (Fresh(s.memory), Error(GenericErrorText))
  {
  }

  /** The one ZeroDivisionError `calculate` can catch comes from `0 ** negative`. */
  lemma ZeroDivisionOnlyFromPower<N>(f: Float<N>, s: State<N>, a: N, b: N)
    requires s.operation == Some("^") && s.previous != ""
    requires Operands(f, s) == Some((a, b)) && f.pow(a, b) == Raise(ZeroDivision)
    ensures Calculate(f, s) == (Fresh(s.memory), Error(DivByZeroText))
  {
    assert ParseOp("^") == Some(Power);
  }

  /**
   `set_operation`: with an input present, first evaluate a pending
   calculation, then move the input into the left operand and remember the
   operator.
   */
  function SetOperation<N>(f: Float<N>, s: State<N>, op: string): (r: State<N>)
    ensures s.current == "" ==> r == s
    ensures s.current != "" && !(Pending(s.operation) && s.previous != "") ==>
      r == s.(previous := s.current, current := "", operation := Some(op),
              lastOperation := s.current + " " + op)
    ensures s.current != "" ==>
      r.current == "" && r.operation == Some(op) && r.lastOperation == r.previous + " " + op
    ensures s.current != "" && Pending(s.operation) && s.previous != "" ==>
      r.previous == Calculate(f, s).0.current && r.history == Calculate(f, s).0.history
    ensures r.memory == s.memory
    ensures |s.history| <= Capacity ==> |r.history| <= Capacity
  {
    if s.current == "" then s
    else
      var t := if Pending(s.operation) && s.previous != "" then Calculate(f, s).0 else s;
      t.(previous := t.current, current := "", operation := Some(op),
         lastOperation := t.current + " " + op)
  }

  /**
   `clear_entry`. The guard that would also drop the pending operation tests
   the input after it has been set to "0", so it never fires: only the input
   changes.
   */
  function ClearEntry<N>(s: State<N>): (r: State<N>)
    ensures r == s.(current := "0")
  {
    var t := s.(current := "0");
    if Pending(t.operation) && t.current == "" then t.(operation := None, lastOperation := "")
    else t
  }

  /** `clear_all`: back to the initial state, except that memory is kept. */
  function ClearAll<N>(s: State<N>): (r: State<N>)
    ensures r == Fresh(s.memory)
    ensures r.memory == s.memory && |r.history| == 0
  {
    s.(current := "0", previous := "", operation := None, lastOperation := "", history := [])
  }

  /** `memory_add`: unparseable input leaves the state unchanged. */
  function MemoryAdd<N>(f: Float<N>, s: State<N>): (r: State<N>)
    ensures r.(memory := s.memory) == s
    ensures f.parse(s.current).None? ==> r == s
    ensures f.parse(s.current).Some? ==> r.memory == f.add(s.memory, f.parse(s.current).value)
  {
    match f.parse(s.current)
    case None => s
    case Some(x) => s.(memory := f.add(s.memory, x))
  }

  /** `memory_subtract`: unparseable input leaves the state unchanged. */
  function MemorySubtract<N>(f: Float<N>, s: State<N>): (r: State<N>)
    ensures r.(memory := s.memory) == s
    ensures f.parse(s.current).None? ==> r == s
    ensures f.parse(s.current).Some? ==> r.memory == f.sub(s.memory, f.parse(s.current).value)
  {
    match f.parse(s.current)
    case None => s
    case Some(x) => s.(memory := f.sub(s.memory, x))
  }

  /** `memory_recall`: the input becomes the unformatted text of memory. */
  function MemoryRecall<N>(f: Float<N>, s: State<N>): (r: State<N>)
    ensures r.(current := s.current) == s
    ensures r.current == f.show(s.memory)
  {
    s.(current := f.show(s.memory))
  }

  /** `memory_clear`: memory becomes 0.0 and nothing else changes. */
  function MemoryClear<N>(f: Float<N>, s: State<N>): (r: State<N>)
    ensures r.(memory := s.memory) == s
    ensures r.memory == f.zero
  {
    s.(memory := f.zero)
  }

  /** `percentage`: unparseable input leaves the state unchanged. */
  function Percentage<N>(f: Float<N>, s: State<N>): (r: State<N>)
    ensures r.(current := s.current) == s
    ensures f.parse(s.current).None? ==> r == s
    ensures f.parse(s.current).Some? ==> r.current == f.show(f.percent(f.parse(s.current).value))
  {
    match f.parse(s.current)
    case None => s
    case Some(x) => s.(current := f.show(f.percent(x)))
  }

  /** The text of `toggle_sign`: strip a leading "-", or prepend one. */
  function Negated(t: string): (r: string)
    ensures |r| == |t| - 1 || |r| == |t| + 1
    ensures StartsWith(t, "-") <==> "-" + r == t
    ensures !StartsWith(t, "-") <==> r == "-" + t
  {
    if StartsWith(t, "-") then t[1..] else "-" + t
  }

  /** Toggling twice restores exactly the inputs that do not begin with "--". */
  lemma NegatedTwice(t: string)
    ensures Negated(Negated(t)) == t <==> !StartsWith(t, "--")
  {
    if StartsWith(t, "-") {
      if StartsWith(t, "--") {
        assert |Negated(Negated(t))| == |t| - 2;
      } else {
        assert "-" + t[1..] == t;
      }
    } else {
      assert ("-" + t)[1..] == t;
    }
  }

  /** `toggle_sign`: only the input changes. */
  function ToggleSign<N>(s: State<N>): (r: State<N>)
    ensures r.(current := s.current) == s
    ensures r.current == Negated(s.current)
  {
    s.(current := Negated(s.current))
  }
}

=== FILE: display.dfy ===
/**
 The main display of the calculator window shows the input with the
 trailing zeros of its fraction and a bare trailing point removed. Only the
 text is modelled here; the window is not.
 */
module Display {
  import opened Text

  /** `rstrip("0").rstrip(".")`, applied only to text holding a point. */
  function Trim(t: string): (r: string)
    ensures '.' !in t ==> r == t
    ensures |r| <= |t| && r == t[..|r|]
    ensures '.' in t ==> |r| == 0 || r[|r| - 1] != '.'
    ensures forall i :: |r| <= i < |t| ==> t[i] == '0' || t[i] == '.'
    ensures '.' in t && AtMostOneDot(t) && '.' in r ==> r[|r| - 1] != '0'
  {
    if '.' in t then
      PointSurvivesOnlyUnstripped(t);
      RStrip(RStrip(t, '0'), '.')
    else t
  }

  /**
   For a number with one point, when the point survives the trimming no
   point was stripped, so the text ends where stripping the zeros stopped.
   */
  lemma PointSurvivesOnlyUnstripped(t: string)
    ensures var z := RStrip(t, '0'); var r := RStrip(z, '.');
      AtMostOneDot(t) && '.' in r ==> r == z && |r| > 0 && r[|r| - 1] != '0'
  {
    var z := RStrip(t, '0');
    var r := RStrip(z, '.');
    if AtMostOneDot(t) && '.' in r && |r| < |z| {
      var i :| 0 <= i < |r| && r[i] == '.';
      TwoDots(t, i, |z| - 1);
    }
  }

  /** Two different positions holding a point make two points. */
  lemma {:induction false} TwoDots(t: string, i: nat, j: nat)
    requires i < j < |t| && t[i] == '.' && t[j] == '.'
    ensures Dots(t) >= 2
    decreases |t|
  {
    if i == 0 {
      assert t[1..][j - 1] == '.';
      assert '.' in t[1..];
    } else {
      TwoDots(t[1..], i - 1, j - 1);
    }
  }

  /**
   For a number with one point, trimming never reaches into the digits
   before the point.
   */
  lemma TrimKeepsIntegerPart(t: string, k: nat)
    requires k < |t| && t[k] == '.' && AtMostOneDot(t)
    ensures k <= |Trim(t)|
    ensures Trim(t)[..k] == t[..k]
  {
    var z := RStrip(t, '0');
    assert k < |z|;
    var r := RStrip(z, '.');
    if |r| < k {
      assert z[|r|] == '.' && t[|r|] == '.';
      TwoDots(t, |r|, k);
    }
  }

  /** For a number with one point, trimming a second time changes nothing. */
  lemma TrimIdempotent(t: string)
    requires AtMostOneDot(t)
    ensures Trim(Trim(t)) == Trim(t)
  {
    if '.' in t {
      var k :| 0 <= k < |t| && t[k] == '.';
      var z := RStrip(t, '0');
      var r := RStrip(z, '.');
      TrimKeepsIntegerPart(t, k);
      if |r| == |z| {
        assert r[k] == '.';
        assert RStrip(r, '0') == r;
        assert RStrip(r, '.') == r;
      } else {
        assert z[|z| - 1] == '.';
        if k < |z| - 1 {
          TwoDots(t, k, |z| - 1);
        }
        assert |r| <= k;
        assert '.' !in r by {
          forall i | 0 <= i < |r| ensures r[i] != '.' {
            if r[i] == '.' {
              TwoDots(t, i, k);
            }
          }
        }
      }
    }
  }

  /** With two points, trimming twice can remove more than trimming once. */
  lemma TrimNotIdempotentWithTwoDots()
    ensures Trim("1.0.0") == "1.0" && Trim(Trim("1.0.0")) == "1"
  {
    assert RStrip("1.0.0", '0') == "1.0.";
    assert RStrip("1.0.", '.') == "1.0";
    assert RStrip("1.0", '0') == "1.";
    assert RStrip("1.", '.') == "1";
  }

  /**
   Python writes very small and very large floats in exponent notation.
   Such a text holds a point, so the trimming also strips a trailing zero of
   the exponent and the display shows a different number: 3 / 2e20 is
   "1.5e-20" and is displayed as "1.5e-2".
   */
  lemma TrimDropsExponentDigit()
    ensures Trim("1.5e-20") == "1.5e-2"
  {
    assert RStrip("1.5e-20", '0') == "1.5e-2";
    assert RStrip("1.5e-2", '.') == "1.5e-2";
  }

  /**
   The trimming as evidently meant: only the fraction of a plain decimal
   text is trimmed, and a text in exponent notation is shown in full.
   */
  function TrimFraction(t: string): (r: string)
    ensures 'e' in t || '.' !in t ==> r == t
    ensures 'e' !in t ==> r == Trim(t)
    ensures |r| <= |t| && r == t[..|r|]
    ensures forall i :: |r| <= i < |t| ==> t[i] == '0' || t[i] == '.'
  {
    if '.' in t && 'e' !in t then RStrip(RStrip(t, '0'), '.') else t
  }

  /** With the intended trimming, "1.5e-20" is displayed unchanged. */
  lemma TrimFractionKeepsExponent()
    ensures TrimFraction("1.5e-20") == "1.5e-20"
  {
    assert "1.5e-20"[3] == 'e';
  }
}

=== FILE: history.dfy ===
/** The calculation log of calculator.py: at most ten entries, oldest first. */
module History {

  /** The number of entries the log keeps. */
  const Capacity: nat := 10

  /** The last `n` elements of `xs` (all of them when there are fewer). */
  function Newest<T>(xs: seq<T>, n: nat): (r: seq<T>)
    ensures |r| == if |xs| < n then |xs| else n
    ensures r == xs[|xs| - |r|..]
  {
    if |xs| <= n then xs else xs[|xs| - n..]
  }

  /**
   Append an entry and, when the log has grown past its capacity, drop the
   oldest entry (one `pop(0)`).
   */
  function Push(h: seq<string>, e: string): (r: seq<string>)
    ensures |r| > 0 && r[|r| - 1] == e
    ensures |h| <= Capacity ==> |r| <= Capacity
    ensures |h| < Capacity ==> r == h + [e]
    ensures |h| == Capacity ==> r == h[1..] + [e]
    ensures |h| <= Capacity ==> r == Newest(h + [e], Capacity)
  {
    var g := h + [e];
    if |g| > Capacity then g[1..] else g
  }

  /** The log after the entries `es` have been pushed one after another. */
  function PushAll(h: seq<string>, es: seq<string>): (r: seq<string>)
    ensures |h| <= Capacity ==> |r| <= Capacity
    decreases |es|
  {
    if |es| == 0 then h else PushAll(Push(h, es[0]), es[1..])
  }

  /** Keeping the newest `n` twice is keeping them once, across an append. */
  lemma NewestOfNewest<T>(xs: seq<T>, ys: seq<T>, n: nat)
    ensures Newest(Newest(xs, n) + ys, n) == Newest(xs + ys, n)
  {
    if |xs| > n {
      var k := |xs| - n;
      assert xs + ys == xs[..k] + (xs[k..] + ys);
      assert Newest(xs, n) + ys == (xs + ys)[k..];
    }
  }

  /**
   However many entries are pushed, the log holds exactly the ten most
   recent ones, in the order they were pushed.
   */
  lemma {:induction false} PushAllKeepsNewest(h: seq<string>, es: seq<string>)
    requires |h| <= Capacity
    ensures PushAll(h, es) == Newest(h + es, Capacity)
    decreases |es|
  {
    if |es| == 0 {
      assert h + es == h;
    } else {
      var g := h + [es[0]];
      var h' := Push(h, es[0]);
      assert h' == Newest(g, Capacity);
      PushAllKeepsNewest(h', es[1..]);
      assert PushAll(h, es) == Newest(h' + es[1..], Capacity);
      NewestOfNewest(g, es[1..], Capacity);
      assert g + es[1..] == h + es;
    }
  }
}

=== FILE: numbers.dfy ===
/**
 The calculator evaluates operands with Python floats (`float(...)`, `+`, `**`,
 `math.sqrt`, `str(...)`). None of that arithmetic is modelled: it is gathered
 in one record of function values that every transition receives, so that the
 verified content is the control flow and the string state around it.
 */
module Numbers {
  import opened Wrappers

  /** The two exception families that `calculate` handles differently. */
  datatype Raised = ZeroDivision | OtherException

  /** The value of a Python expression that may raise. */
  datatype Eval<N> = Value(n: N) | Raise(e: Raised)

  /**
   Python's numeric behaviour over number values of type `N`:
   - `parse`: `float(text)`; None where Python raises ValueError;
   - `isZero`: whether a number compares equal to 0;
   - `add`, `sub`, `mul`, `div`: the float operators, which never raise
     (`div` is only applied to a non-zero divisor);
   - `pow`: `**`, which raises ZeroDivisionError for `0 ** negative` and
     OverflowError when the result is too large, and returns a complex
     number (it does not raise) for a negative base with a fractional
     exponent;
   - `sqrt`: `math.sqrt`; None where it raises ValueError (negative numbers);
   - `format`: the text of a result once an integral float has been turned
     into an int (`str(int(r) if r.is_integer() else r)`); a complex result
     is not a float, so it keeps its plain `str`, such as "(1+1.7j)";
   - `show`: plain `str(r)`;
   - `percent`: `r / 100`;
   - `zero`: `0.0`.
   */
  datatype Float<!N> = Float(
    parse: string -> Option<N>,
    isZero: N -> bool,
    add: (N, N) -> N,
    sub: (N, N) -> N,
    mul: (N, N) -> N,
    div: (N, N) -> N,
    pow: (N, N) -> Eval<N>,
    sqrt: N -> Option<N>,
    format: N -> string,
    show: N -> string,
    percent: N -> N,
    zero: N)
}

=== FILE: operators.dfy ===
/** The operator symbols of calculator.py and the arithmetic dispatch of `calculate`. */
module Operators {
  import opened Wrappers
  import opened Numbers

  /** The six operators `calculate` knows; every other symbol is an error. */
  datatype Op = Plus | Minus | Times | Divide | Power | Root

  /** The square-root sign, U+221A. */
  const RootSymbol: string := "\U{221A}"

  /** The text `calculate` produces for `/` with a zero divisor. */
  const DivByZeroText: string := "Error: Div/0"

  /** The symbol a user selects for each operator. */
  function Symbol(op: Op): (r: string)
    ensures |r| == 1
    ensures ParseOp(r) == Some(op)
  {
    match op
    case Plus => "+"
    case Minus => "-"
    case Times => "*"
    case Divide => "/"
    case Power => "^"
    case Root => RootSymbol
  }

  /** The `if`/`elif` chain on the operation symbol; None is the final `else`. */
  function ParseOp(s: string): (r: Option<Op>)
    ensures r.Some? <==> s in {"+", "-", "*", "/", "^", RootSymbol}
  {
    if s == "+" then Some(Plus)
    else if s == "-" then Some(Minus)
    else if s == "*" then Some(Times)
    else if s == "/" then Some(Divide)
    else if s == "^" then Some(Power)
    else if s == RootSymbol then Some(Root)
    else None
  }

  /** Parsing a symbol and printing it back gives the symbol itself. */
  lemma ParseOpInverse(s: string)
    ensures ParseOp(s).Some? ==> Symbol(ParseOp(s).value) == s
  {
  }

  /** A result text, or the exception the computation raised. */
  datatype Outcome = Done(text: string) | Failed(e: Raised)

  /** The result text of a computation that may raise. */
  function Formatted<N>(f: Float<N>, v: Eval<N>): (r: Outcome)
    ensures v.Raise? <==> r.Failed?
    ensures v.Raise? ==> r.e == v.e
  {
    match v
    case Value(n) => Done(f.format(n))
    case Raise(e) => Failed(e)
  }

  /**
   The dispatch of `calculate` on the operator and the formatting of its
   result. Division by zero yields the in-band text rather than raising, so
   only `**` and `math.sqrt` can raise, and only `**` can raise
   ZeroDivisionError.
   */
  function Compute<N>(f: Float<N>, op: Op, a: N, b: N): (r: Outcome)
    ensures op == Plus ==> r == Done(f.format(f.add(a, b)))
    ensures op == Minus ==> r == Done(f.format(f.sub(a, b)))
    ensures op == Times ==> r == Done(f.format(f.mul(a, b)))
    ensures op == Power ==> r == Formatted(f, f.pow(a, b))
    ensures op == Root && f.sqrt(a).Some? ==> r == Done(f.format(f.sqrt(a).value))
    ensures op == Divide && f.isZero(b) ==> r == Done(DivByZeroText)
    ensures op == Divide && !f.isZero(b) ==> r == Done(f.format(f.div(a, b)))
    ensures r.Failed? ==> op == Power || op == Root
    ensures r == Failed(ZeroDivision) ==> op == Power && f.pow(a, b) == Raise(ZeroDivision)
    ensures op == Root ==> (r == Failed(OtherException) <==> f.sqrt(a).None?)
  {
    match op
    case Plus => Done(f.format(f.add(a, b)))
    case Minus => Done(f.format(f.sub(a, b)))
    case Times => Done(f.format(f.mul(a, b)))
    case Divide => if f.isZero(b) then Done(DivByZeroText) else Done(f.format(f.div(a, b)))
    case Power => Formatted(f, f.pow(a, b))
    case Root =>
      match f.sqrt(a)
      case Some(n) => Done(f.format(n))
      case None => Failed(OtherException)
  }

  /** The square root is unary: the right operand plays no part in it. */
  lemma RootIgnoresRightOperand<N>(f: Float<N>, a: N, b: N, b': N)
    ensures Compute(f, Root, a, b) == Compute(f, Root, a, b')
  {
  }
}

=== FILE: session.dfy ===
/**
 Sequences of calculator method calls: the invariants every call keeps, the
 way typed keys accumulate, and worked scenarios, stated over any arithmetic
 that gives the operands the values they name.
 */
module Session {
  import opened Wrappers
  import opened Numbers
  import opened Operators
  import opened Text
  import opened History
  import opened Calculator

  /** One call of a `Calculator` method. */
  datatype Action =
    | AllClear               // clear_all
    | Clear                  // clear_entry
    | Key(v: string)         // add_to_input(v)
    | Choose(op: string)     // set_operation(op)
    | Equals                 // calculate()
    | Negate                 // toggle_sign
    | Percent                // percentage
    | MemClear               // memory_clear
    | MemAdd                 // memory_add
    | MemSub                 // memory_subtract
    | MemRecall              // memory_recall

  /** The calls that may write the memory register. */
  predicate WritesMemory(a: Action) {
    a.MemClear? || a.MemAdd? || a.MemSub?
  }

  /** The invariant every reachable state keeps: the log holds at most ten entries. */
  predicate Valid<N>(s: State<N>) {
    |s.history| <= Capacity
  }

  /** The state after one call. */
  function Step<N>(f: Float<N>, s: State<N>, a: Action): (r: State<N>)
    ensures Valid(s) ==> Valid(r)
    ensures !WritesMemory(a) ==> r.memory == s.memory
    ensures a.MemClear? ==> r.memory == f.zero
  {
    match a
    case AllClear => ClearAll(s)
    case Clear => ClearEntry(s)
    case Key(v) => AddToInput(s, v)
    case Choose(op) => SetOperation(f, s, op)
    case Equals => Calculate(f, s).0
    case Negate => ToggleSign(s)
    case Percent => Percentage(f, s)
    case MemClear => MemoryClear(f, s)
    case MemAdd => MemoryAdd(f, s)
    case MemSub => MemorySubtract(f, s)
    case MemRecall => MemoryRecall(f, s)
  }

  /**
   The state after a sequence of calls. However long the session, the log
   never exceeds ten entries, and memory changes only through the memory
   calls.
   */
  function Run<N>(f: Float<N>, s: State<N>, acts: seq<Action>): (r: State<N>)
    ensures Valid(s) ==> Valid(r)
    ensures (forall i :: 0 <= i < |acts| ==> !WritesMemory(acts[i])) ==> r.memory == s.memory
    decreases |acts|
  {
    if |acts| == 0 then s else Run(f, Step(f, s, acts[0]), acts[1..])
  }

  /** Every state reachable from a fresh calculator keeps the invariant. */
  lemma ReachableIsValid<N>(f: Float<N>, acts: seq<Action>)
    ensures Valid(Run(f, Init(f), acts))
  {
  }

  /** A key the keypad can type: one decimal digit or the point. */
  predicate IsKey(v: string) {
    v == "." || (|v| == 1 && '0' <= v[0] <= '9')
  }

  /** The keys typed, one after another. */
  function Concat(keys: seq<string>): string
    decreases |keys|
  {
    if |keys| == 0 then "" else keys[0] + Concat(keys[1..])
  }

  /** The state after typing `keys` with `add_to_input`. */
  function TypeKeys<N>(s: State<N>, keys: seq<string>): (r: State<N>)
    ensures r.(current := s.current) == s
    decreases |keys|
  {
    if |keys| == 0 then s else TypeKeys(AddToInput(s, keys[0]), keys[1..])
  }

  /** One key appended to an input that is neither empty nor the bare "0". */
  lemma KeyAppends<N>(s: State<N>, k: string, rest: string)
    requires s.current != "" && s.current != "0" && IsKey(k)
    requires AtMostOneDot(s.current + (k + rest))
    ensures AddToInput(s, k).current == s.current + k
  {
    DotsAppend(s.current, k + rest);
    DotsAppend(k, rest);
    if k == "." {
      assert Dots(k) == 1;
    }
  }

  /**
   Once the input holds something other than the bare "0", typed digits and
   a single point are appended exactly as typed.
   */
  lemma {:induction false} TypedKeysAppend<N>(s: State<N>, keys: seq<string>)
    requires s.current != "" && s.current != "0"
    requires forall i :: 0 <= i < |keys| ==> IsKey(keys[i])
    requires AtMostOneDot(s.current + Concat(keys))
    ensures TypeKeys(s, keys).current == s.current + Concat(keys)
    decreases |keys|
  {
    if |keys| > 0 {
      var k, rest := keys[0], keys[1..];
      assert IsKey(k);
      assert Concat(keys) == k + Concat(rest);
      KeyAppends(s, k, Concat(rest));
      var s' := AddToInput(s, k);
      assert s.current + Concat(keys) == s'.current + Concat(rest);
      assert forall i :: 0 <= i < |rest| ==> IsKey(rest[i]) by {
        forall i | 0 <= i < |rest| ensures IsKey(rest[i]) {
          assert rest[i] == keys[i + 1];
        }
      }
      TypedKeysAppend(s', rest);
      assert TypeKeys(s, keys) == TypeKeys(s', rest);
    }
  }

  /**
   An input in the form typing produces: it does not begin with a "0"
   followed by anything but a point. The empty input and the bare "0" have
   this form.
   */
  predicate IsNormal(t: string) {
    !(|t| >= 2 && t[0] == '0' && t[1] != '.')
  }

  /** Position `i` holds a zero that typing suppresses: something other than a point follows it. */
  predicate RedundantZeroAt(t: string, i: int) {
    0 <= i && i + 1 < |t| && t[i] == '0' && t[i + 1] != '.'
  }

  /**
   `t` with its leading zeros removed, keeping the zero in front of a point
   and a final lone zero: "007" is "7", "00" is "0", "0.5" stays "0.5".
   */
  function Normalized(t: string): (r: string)
    ensures IsNormal(r)
    ensures |r| <= |t| && r == t[|t| - |r|..]
    ensures forall i :: 0 <= i < |t| - |r| ==> RedundantZeroAt(t, i)
    decreases |t|
  {
    if |t| >= 2 && t[0] == '0' && t[1] != '.' then
      var r := Normalized(t[1..]);
      assert forall i :: 1 <= i < |t| - |r| ==> RedundantZeroAt(t, i) by {
        forall i | 1 <= i < |t| - |r| ensures RedundantZeroAt(t, i) {
          assert RedundantZeroAt(t[1..], i - 1);
        }
      }
      r
    else t
  }

  /** A digit typed over the bare "0" replaces it. */
  lemma ZeroReplaced(k: string, rest: string)
    requires IsKey(k) && k != "."
    ensures IsNormal(k)
    ensures Normalized(k + rest) == Normalized("0" + (k + rest))
    ensures Dots(k + rest) <= Dots("0" + (k + rest))
  {
    var t := "0" + (k + rest);
    assert t[0] == '0' && t[1] == k[0];
    assert t[1..] == k + rest;
    DotsAppend("0", k + rest);
  }

  /** A key appended to an input of the normal form keeps that form. */
  lemma AppendedIsNormal(c: string, k: string)
    requires IsNormal(c) && IsKey(k) && !(c == "0" && k != ".")
    ensures IsNormal(c + k)
  {
    if |c| >= 2 {
      assert (c + k)[..2] == c[..2];
    }
  }

  /**
   The contract of `Normalized` determines it: a suffix of `t` in normal form
   that differs from `t` only by redundant zeros is `Normalized(t)`.
   */
  lemma NormalizedPinned(t: string, r: string)
    requires IsNormal(r) && |r| <= |t| && r == t[|t| - |r|..]
    requires forall i :: 0 <= i < |t| - |r| ==> RedundantZeroAt(t, i)
    ensures r == Normalized(t)
  {
    var n := Normalized(t);
    var jn, jr := |t| - |n|, |t| - |r|;
    assert !RedundantZeroAt(t, jn) by {
      if jn + 1 < |t| {
        assert n[0] == t[jn] && n[1] == t[jn + 1];
      }
    }
    assert !RedundantZeroAt(t, jr) by {
      if jr + 1 < |t| {
        assert r[0] == t[jr] && r[1] == t[jr + 1];
      }
    }
    assert jn >= jr && jr >= jn;
  }

  /** One key typed into an input of the normal form. */
  lemma KeyStep<N>(s: State<N>, k: string, rest: string)
    requires IsNormal(s.current) && IsKey(k)
    requires AtMostOneDot(s.current + (k + rest))
    ensures var c := AddToInput(s, k).current;
      && IsNormal(c) && Normalized(c + rest) == Normalized(s.current + (k + rest))
      && AtMostOneDot(c + rest)
  {
    var c0 := s.current;
    if k == "." {
      DotsAppend(c0, k + rest);
      DotsAppend(k, rest);
      assert Dots(k) == 1;
      assert '.' !in c0;
    }
    if c0 == "0" && k != "." {
      ZeroReplaced(k, rest);
    } else {
      AppendedIsNormal(c0, k);
      assert (c0 + k) + rest == c0 + (k + rest);
    }
  }

  /**
   Typing digits and at most one point into the empty input that
   `set_operation` leaves, into the bare "0", or into any input of the
   normal form, gives the typed text with its leading zeros suppressed.
   */
  lemma {:induction false} TypedInput<N>(s: State<N>, keys: seq<string>)
    requires IsNormal(s.current)
    requires forall i :: 0 <= i < |keys| ==> IsKey(keys[i])
    requires AtMostOneDot(s.current + Concat(keys))
    ensures TypeKeys(s, keys).current == Normalized(s.current + Concat(keys))
    decreases |keys|
  {
    if |keys| == 0 {
      assert s.current + Concat(keys) == s.current;
    } else {
      var k, rest := keys[0], keys[1..];
      assert IsKey(k);
      assert Concat(keys) == k + Concat(rest);
      KeyStep(s, k, Concat(rest));
      var s' := AddToInput(s, k);
      assert forall i :: 0 <= i < |rest| ==> IsKey(rest[i]) by {
        forall i | 0 <= i < |rest| ensures IsKey(rest[i]) {
          assert rest[i] == keys[i + 1];
        }
      }
      TypedInput(s', rest);
      assert TypeKeys(s, keys) == TypeKeys(s', rest);
    }
  }

  /** Leading zeros are suppressed: "0", "0", "7" typed after "0" give "7". */
  lemma LeadingZerosSuppressed<N>(s: State<N>)
    requires s.current == "0"
    ensures TypeKeys(s, ["0", "0", "7"]).current == "7"
  {
    var s1 := AddToInput(s, "0");
    var s2 := AddToInput(s1, "0");
    var s3 := AddToInput(s2, "7");
    assert s3.current == "7";
    assert ["0", "0", "7"][1..] == ["0", "7"];
    assert ["0", "7"][1..] == ["7"];
    assert ["7"][1..] == [];
    assert TypeKeys(s, ["0", "0", "7"]) == TypeKeys(s1, ["0", "7"]);
    assert TypeKeys(s1, ["0", "7"]) == TypeKeys(s2, ["7"]);
    assert TypeKeys(s2, ["7"]) == TypeKeys(s3, []);
  }

  /** A right operand typed after `set_operation`: "0", "7" give "7", "." gives ".". */
  lemma RightOperandTyped<N>(s: State<N>)
    requires s.current == ""
    ensures TypeKeys(s, ["0", "7"]).current == "7"
    ensures TypeKeys(s, ["."]).current == "."
  {
    var s1 := AddToInput(s, "0");
    assert s1.current == "0";
    var s2 := AddToInput(s1, "7");
    assert s2.current == "7";
    assert ["0", "7"][1..] == ["7"];
    assert ["7"][1..] == [];
    assert TypeKeys(s, ["0", "7"]) == TypeKeys(s1, ["7"]);
    assert TypeKeys(s1, ["7"]) == TypeKeys(s2, []);
    assert ["."][1..] == [];
    assert TypeKeys(s, ["."]) == TypeKeys(AddToInput(s, "."), []);
  }

  /** Running four calls is running the last three after the first. */
  lemma RunFour<N>(f: Float<N>, s: State<N>, a: Action, b: Action, c: Action, d: Action)
    ensures Run(f, s, [a, b, c, d])
         == Step(f, Step(f, Step(f, Step(f, s, a), b), c), d)
  {
    var s1 := Step(f, s, a);
    var s2 := Step(f, s1, b);
    var s3 := Step(f, s2, c);
    assert [a, b, c, d][1..] == [b, c, d];
    assert [b, c, d][1..] == [c, d];
    assert [c, d][1..] == [d];
    assert [d][1..] == [];
    assert Run(f, s, [a, b, c, d]) == Run(f, s1, [b, c, d]);
    assert Run(f, s1, [b, c, d]) == Run(f, s2, [c, d]);
    assert Run(f, s2, [c, d]) == Run(f, s3, [d]);
    assert Run(f, s3, [d]) == Run(f, Step(f, s3, d), []);
  }

  /** Evaluating a pending "5 +" with input "3". */
  lemma SumStep<N>(f: Float<N>, five: N, three: N)
    requires f.parse("5") == Some(five) && f.parse("3") == Some(three)
    requires f.format(f.add(five, three)) == "8"
    ensures Calculate(f, State("3", "5", Some("+"), f.zero, [], "5 +"))
         == (State("8", "5", None, f.zero, ["5 + 3 = 8"], ""), Result("8"))
  {
    var s := State("3", "5", Some("+"), f.zero, [], "5 +");
    assert Operands(f, s) == Some((five, three));
    assert ParseOp("+") == Some(Plus);
    assert Compute(f, Plus, five, three) == Done("8");
    assert Entry(s, "8") == "5 + 3 = 8";
  }

  /** Typing "5", "+", "3", "=" logs "5 + 3 = 8" when 5 + 3 formats as "8". */
  lemma SumScenario<N>(f: Float<N>, five: N, three: N)
    requires f.parse("5") == Some(five) && f.parse("3") == Some(three)
    requires f.format(f.add(five, three)) == "8"
    ensures var r := Run(f, Init(f), [Key("5"), Choose("+"), Key("3"), Equals]);
      r.current == "8" && r.history == ["5 + 3 = 8"] && r.operation == None
  {
    var s1 := Step(f, Init(f), Key("5"));
    assert s1 == State("5", "", None, f.zero, [], "");
    var s2 := Step(f, s1, Choose("+"));
    assert s2 == State("", "5", Some("+"), f.zero, [], "5 +");
    var s3 := Step(f, s2, Key("3"));
    assert s3 == State("3", "5", Some("+"), f.zero, [], "5 +");
    SumStep(f, five, three);
    RunFour(f, Init(f), Key("5"), Choose("+"), Key("3"), Equals);
  }

  /** Evaluating a pending "5 /" with input "0". */
  lemma DivideStep<N>(f: Float<N>, five: N, zero: N)
    requires f.parse("5") == Some(five) && f.parse("0") == Some(zero) && f.isZero(zero)
    ensures Calculate(f, State("0", "5", Some("/"), f.zero, [], "5 /"))
         == (State(DivByZeroText, "5", None, f.zero, ["5 / 0 = " + DivByZeroText], ""),
             Result(DivByZeroText))
  {
    var s := State("0", "5", Some("/"), f.zero, [], "5 /");
    assert Operands(f, s) == Some((five, zero));
    assert ParseOp("/") == Some(Divide);
    assert Compute(f, Divide, five, zero) == Done(DivByZeroText);
    assert Entry(s, DivByZeroText) == "5 / 0 = " + DivByZeroText;
  }

  /**
   Dividing 5 by 0 does not reset the calculator: the error text is logged
   and becomes the input, as a result would.
   */
  lemma DivideByZeroScenario<N>(f: Float<N>, five: N, zero: N)
    requires f.parse("5") == Some(five) && f.parse("0") == Some(zero) && f.isZero(zero)
    ensures var r := Run(f, Init(f), [Key("5"), Choose("/"), Key("0"), Equals]);
      && r.current == DivByZeroText && r.previous == "5"
      && r.history == ["5 / 0 = " + DivByZeroText]
      && r.operation == None && r.lastOperation == ""
  {
    var s1 := Step(f, Init(f), Key("5"));
    assert s1 == State("5", "", None, f.zero, [], "");
    var s2 := Step(f, s1, Choose("/"));
    assert s2 == State("", "5", Some("/"), f.zero, [], "5 /");
    var s3 := Step(f, s2, Key("0"));
    assert s3 == State("0", "5", Some("/"), f.zero, [], "5 /");
    DivideStep(f, five, zero);
    RunFour(f, Init(f), Key("5"), Choose("/"), Key("0"), Equals);
  }

  /**
   The in-band error text cannot be an operand: choosing an operator after
   it and evaluating resets everything but memory and returns "Error".
   */
  lemma ErrorTextAsOperand<N>(f: Float<N>, s: State<N>, op: string)
    requires s.current == DivByZeroText && !Pending(s.operation) && op != ""
    requires f.parse(DivByZeroText).None?
    ensures Calculate(f, SetOperation(f, s, op)) == (Fresh(s.memory), Error(GenericErrorText))
  {
  }

  /** "16", "√", "=" evaluates the square root of 16 without a right operand. */
  lemma RootScenario<N>(f: Float<N>, sixteen: N, four: N)
    requires f.parse("16") == Some(sixteen) && f.sqrt(sixteen) == Some(four)
    requires f.format(four) == "4"
    ensures var r := Run(f, Init(f), [Key("1"), Key("6"), Choose(RootSymbol), Equals]);
      r.current == "4" && r.history == ["16 " + RootSymbol + "  = 4"]
  {
    var s1 := Step(f, Init(f), Key("1"));
    assert s1 == State("1", "", None, f.zero, [], "");
    var s2 := Step(f, s1, Key("6"));
    assert s2 == State("16", "", None, f.zero, [], "");
    var s3 := Step(f, s2, Choose(RootSymbol));
    assert s3 == State("", "16", Some(RootSymbol), f.zero, [], "16 " + RootSymbol);
    assert Operands(f, s3) == Some((sixteen, sixteen));
    assert ParseOp(RootSymbol) == Some(Root);
    assert Compute(f, Root, sixteen, sixteen) == Done("4");
    assert Entry(s3, "4") == "16 " + RootSymbol + "  = 4";
    assert Calculate(f, s3).1 == Result("4");
    RunFour(f, Init(f), Key("1"), Key("6"), Choose(RootSymbol), Equals);
  }

  /**
   Choosing a second operator evaluates the first: "5 + 3 +" logs
   "5 + 3 = 8" and leaves "8 +" pending.
   */
  lemma ChainScenario<N>(f: Float<N>, five: N, three: N)
    requires f.parse("5") == Some(five) && f.parse("3") == Some(three)
    requires f.format(f.add(five, three)) == "8"
    ensures var r := Run(f, Init(f), [Key("5"), Choose("+"), Key("3"), Choose("+")]);
      && r.previous == "8" && r.current == "" && r.operation == Some("+")
      && r.lastOperation == "8 +" && r.history == ["5 + 3 = 8"]
  {
    var s1 := Step(f, Init(f), Key("5"));
    assert s1 == State("5", "", None, f.zero, [], "");
    var s2 := Step(f, s1, Choose("+"));
    assert s2 == State("", "5", Some("+"), f.zero, [], "5 +");
    var s3 := Step(f, s2, Key("3"));
    assert s3 == State("3", "5", Some("+"), f.zero, [], "5 +");
    SumStep(f, five, three);
    assert SetOperation(f, s3, "+") == State("", "8", Some("+"), f.zero, ["5 + 3 = 8"], "8 +");
    RunFour(f, Init(f), Key("5"), Choose("+"), Key("3"), Choose("+"));
  }

  /** Clear memory, add "5" to it and recall it: the input is the text of 0.0 + 5. */
  lemma MemoryScenario<N>(f: Float<N>, five: N)
    requires f.parse("5") == Some(five)
    ensures Run(f, Init(f), [Key("5"), MemClear, MemAdd, MemRecall]).current
            == f.show(f.add(f.zero, five))
  {
    RunFour(f, Init(f), Key("5"), MemClear, MemAdd, MemRecall);
    assert Step(f, Init(f), Key("5")).current == "5";
  }
}

=== FILE: text.dfy ===
/** String helpers over `seq<char>` that the calculator's string state needs. */
module Text {

  /** The number of decimal points in `t`. */
  function Dots(t: string): (r: nat)
    ensures r == 0 <==> '.' !in t
    ensures r <= |t|
  {
    if |t| == 0 then 0
    else (if t[0] == '.' then 1 else 0) + Dots(t[1..])
  }

  /** Counting decimal points distributes over concatenation. */
  lemma {:induction false} DotsAppend(a: string, b: string)
    ensures Dots(a + b) == Dots(a) + Dots(b)
  {
    if |a| == 0 {
      assert a + b == b;
    } else {
      assert (a + b)[1..] == a[1..] + b;
      DotsAppend(a[1..], b);
    }
  }

  /** The text holds at most one decimal point, as a typed number does. */
  predicate AtMostOneDot(t: string) {
    Dots(t) <= 1
  }

  /** Python's `t.startswith(p)`. */
  predicate StartsWith(t: string, p: string)
    ensures StartsWith(t, p) <==> |p| <= |t| && t == p + t[|p|..]
  {
    |p| <= |t| && t[..|p|] == p
  }

  /**
   Python's `t.rstrip(c)` for a single character: `t` without the run of
   `c` at its end.
   */
  function RStrip(t: string, c: char): (r: string)
    ensures |r| <= |t| && r == t[..|r|]
    ensures |r| == 0 || r[|r| - 1] != c
    ensures forall i :: |r| <= i < |t| ==> t[i] == c
  {
    if |t| > 0 && t[|t| - 1] == c then RStrip(t[..|t| - 1], c) else t
  }
}

=== FILE: wrappers.dfy ===
/** The optional value used for Python's `None`-or-value results. */
module Wrappers {

  datatype Option<+T> = None | Some(value: T)
}
